=== FILE: README.md ===
# weatherChecker flow in Dafny

This project models the `weatherChecker` Spring Integration flow of the weather service. Every
poll fetches the weather for Wroclaw and stamps it with a `seq` header taken from an
`AtomicInteger` counter that starts at 0. The flow then runs these stages:

1. A splitter passes the message with `seq == 0` through once and emits every other message twice.
2. An aggregator correlates the messages by location name. It releases a group as soon as the
   group holds two messages, then removes it.
3. The group processor `temperatureDiff` reduces the released group to the percentage change
   `(100 * diff) / oldTemp` in Java `int` arithmetic.
4. A filter keeps the metrics with `Math.abs(diff) > 5`.
5. A transformer formats `"High temperature diff: " + diff`, which is then mailed.

The files are:

- `java_int.dfy` (module `JavaInt`) spells out the Java `int` operations the flow uses:
  - 32-bit two's-complement wrap-around;
  - `/`, which truncates toward zero and overflows on `MIN / -1`;
  - `Math.abs`, which returns `MIN` for `MIN`.
- `decimal.dfy` (module `Decimal`) renders an `int` the way string concatenation does. It reads
  the rendering back, which shows that the notification text determines the metric.
- `stages.dfy` (module `Stages`) holds each stage as a pure function. Two functions build on them:
  - `TickStep` is one poll pushed through all the stages.
  - `Run` is a sequence of polls.
- `composition.dfy` (module `Composition`) proves what the chain guarantees as a whole:
  - The first reading opens the group.
  - As long as no reading before the current one was at 0 degrees and fewer than 2^31 polls have
    run, each later poll releases exactly one metric, comparing the previous reading with the
    current one, and the group is left holding exactly the latest reading (`Composed`). A reading
    at 0 degrees breaks this, as the next paragraph says; so does the wrap of the counter, whose
    single stamp-0 copy releases the buffered pair and leaves no group open.
  - Between polls no group holds more than one message, so no group ever exceeds two.
- `weather_checker.dfy` (module `WeatherChecker`) is the imperative form. The class `WeatherFlow`
  keeps the counter and the aggregator's group store as fields. Its `Tick` method loops over the
  split copies of one poll, and the method is proved equal to `TickStep`.

The behaviour at 0 degrees is modelled as the code has it. A reading at 0 degrees is the
`oldTemp` of the next pair, so that pair's reduction divides by zero. The group is removed anyway.
A failed reduction is not confined to its group: the exception propagates through the splitter's
send loop, so the second copy of that poll is never delivered. From the next poll on, both copies
of each reading form a group of their own. That group reduces to 0, or fails again for a reading
at 0 degrees. The location is therefore never mailed about again within 2^32 polls
(`ZeroBufferedSilences` and `SilentOutOfPhase`; from the start of the flow, `ZeroReadingSilences`
states it within 2^31 polls). After 2^32 polls the stamp 0 returns; a single copy then reopens the
group, and mailing can resume.

## Model

All source paths are in `weather/src/main/java/com/sda/weather/`.

| member | source | states |
|---|---|---|
| JavaInt.Wrap | weather/src/main/java/com/sda/weather/IntegrationConfig.java:45-46 | A Java `int` result is the mathematical result brought into the 32-bit range. A value already in range is unchanged. |
| JavaInt.WrapModulo | weather/src/main/java/com/sda/weather/IntegrationConfig.java:45-46 | Wrapping changes a value by a multiple of 2^32. |
| JavaInt.WrapCongruent | weather/src/main/java/com/sda/weather/IntegrationConfig.java:45-46 | Values congruent modulo 2^32 become the same `int`. |
| JavaInt.WrapIncrement | weather/src/main/java/com/sda/weather/IntegrationConfig.java:35 | Incrementing a wrapped counter equals wrapping the unbounded count: `getAndIncrement` n times from 0 leaves `Wrap(n)`. |
| JavaInt.WrapZeroIff | weather/src/main/java/com/sda/weather/IntegrationConfig.java:35 | The counter reads 0 again exactly after a multiple of 2^32 increments. |
| JavaInt.TruncDivSpec | weather/src/main/java/com/sda/weather/IntegrationConfig.java:46 | Truncating division leaves a remainder with the dividend's sign, smaller in magnitude than the divisor. |
| JavaInt.TruncDivUnique | weather/src/main/java/com/sda/weather/IntegrationConfig.java:46 | The truncated quotient is the only quotient with such a remainder. |
| JavaInt.TruncDivFits | weather/src/main/java/com/sda/weather/IntegrationConfig.java:46 | Every `int` quotient fits in an `int`, except `MIN / -1`. |
| JavaInt.TruncDiv | weather/src/main/java/com/sda/weather/IntegrationConfig.java:46 | Its contract is carried by `TruncDivSpec` and `TruncDivUnique`: the quotient rounded toward zero, the only one whose remainder has the dividend's sign and is smaller than the divisor. |
| JavaInt.JavaDiv | weather/src/main/java/com/sda/weather/IntegrationConfig.java:46 | Java `/` is truncating division, and `MIN / -1` overflows back to `MIN`. |
| JavaInt.JavaAbs | weather/src/main/java/com/sda/weather/IntegrationConfig.java:72 | `Math.abs` returns the magnitude, except for `MIN`, which it returns unchanged. |
| Decimal.IntToString | weather/src/main/java/com/sda/weather/IntegrationConfig.java:73 | The rendering starts with '-' exactly for a negative value; the rest is decimal digits with no leading zero. `IntRoundTrip` reads it back. |
| Decimal.IntRoundTrip | weather/src/main/java/com/sda/weather/IntegrationConfig.java:73 | Parsing the decimal rendering of an `int` gives the `int` back. |
| Stages.Split | weather/src/main/java/com/sda/weather/IntegrationConfig.java:54-62 | The splitter emits the message stamped 0 exactly once and any other message as exactly two copies, all equal to the input. |
| Stages.CorrelationKey | weather/src/main/java/com/sda/weather/IntegrationConfig.java:49-52 | Its contract is carried by `AggregateStepSpec`: a message is filed under its payload's location name, and only that location's group changes. |
| Stages.ChangeMetric | weather/src/main/java/com/sda/weather/IntegrationConfig.java:43-46 | The reduction fails exactly when the old temperature is 0. |
| Stages.ChangeMetricExact | weather/src/main/java/com/sda/weather/IntegrationConfig.java:43-46 | Within ten million degrees nothing overflows, so the metric is `trunc(100 * (new - old) / old)`. |
| Stages.TemperatureDiff | weather/src/main/java/com/sda/weather/IntegrationConfig.java:38-47 | A group of fewer than two messages gives 0. A larger group fails exactly when its first-arrived temperature is 0. |
| Stages.SelfPairIsZero | weather/src/main/java/com/sda/weather/IntegrationConfig.java:43-46 | A group of two copies of one non-zero reading reduces to 0. |
| Stages.Passes | weather/src/main/java/com/sda/weather/IntegrationConfig.java:72 | A metric passes the filter exactly when it lies outside [-5, 5] and is not `MIN`. |
| Stages.Format | weather/src/main/java/com/sda/weather/IntegrationConfig.java:73 | Its contract is carried by `FormatSpec` and `FormatInjective`: the prefix, then the metric in decimal, readable back and distinct for distinct metrics. |
| Stages.FormatSpec | weather/src/main/java/com/sda/weather/IntegrationConfig.java:73 | The text is the fixed prefix followed by a well-formed signed decimal with no leading zero, and that decimal parses to the metric. |
| Stages.FormatInjective | weather/src/main/java/com/sda/weather/IntegrationConfig.java:73 | Different metrics give different texts. |
| Stages.Notify | weather/src/main/java/com/sda/weather/IntegrationConfig.java:72-73 | Its contract is carried by `NotifyIff`: the filter, then the transform, yielding one text exactly for a passing metric. |
| Stages.NotifyIff | weather/src/main/java/com/sda/weather/IntegrationConfig.java:72-73 | A metric yields at most one notification, and exactly one when it passes the filter. Metrics in [-5, 5] yield none. The text starts with the prefix, and the rest parses back to the metric. |
| Stages.AggregateStep | weather/src/main/java/com/sda/weather/IntegrationConfig.java:66-71 | Its contract is carried by `AggregateStepSpec` (any store) and `AggregateStepBuffered` (the stores the flow reaches). |
| Stages.AggregateStepSpec | weather/src/main/java/com/sda/weather/IntegrationConfig.java:66-71 | For any store: the message is appended to the group of its location name, created if absent. The group is released, reduced in arrival order and removed exactly when it then holds at least two messages; otherwise it is kept. Every other location's group is unchanged. |
| Stages.AggregateStepBuffered | weather/src/main/java/com/sda/weather/IntegrationConfig.java:66-71 | When every group holds one message, the second message of a key releases the pair, oldest first, and removes the group. The first message of a key opens a group holding just itself. Other keys are untouched. |
| Stages.Feed | weather/src/main/java/com/sda/weather/IntegrationConfig.java:64-73 | Its contract is carried by `FeedSpec`, `FeedFailedStops` and `FeedBuffered`, including the exception path that stops delivery. |
| Stages.FeedSpec | weather/src/main/java/com/sda/weather/IntegrationConfig.java:64-73 | Feeding releases at most one result per message. The notifications are exactly those of the released results. Only the last released result can be a failure, and the feed reports a failure exactly when it is one. |
| Stages.FeedFailedStops | weather/src/main/java/com/sda/weather/IntegrationConfig.java:46-65 | Once a feed has failed, the copies after the failure are not delivered: feeding more messages leaves the store, the releases, the notifications and the failure unchanged. |
| Stages.FeedBuffered | weather/src/main/java/com/sda/weather/IntegrationConfig.java:65-71 | Feeding split copies to the aggregator keeps every group at one message between messages. |
| Stages.TickStep | weather/src/main/java/com/sda/weather/IntegrationConfig.java:31-73 | Its contract is carried by `TickStepSpec`, by `FirstTick`, `TickInPhase` and `TickOutOfPhase`, and by `WeatherFlow.Tick`, which is proved equal to it. |
| Stages.TickStepSpec | weather/src/main/java/com/sda/weather/IntegrationConfig.java:31-73 | One poll advances the counter by one, wrapping. The first poll (stamp 0) releases at most one result, any other at most two. The notifications are those of the released results, and the poll fails exactly when its last release did. |
| Stages.RunWith | weather/src/main/java/com/sda/weather/IntegrationConfig.java:64 | Its contract is carried by `RunWithAppend`: a run splits at any point, whatever one poll does. |
| Stages.Run | weather/src/main/java/com/sda/weather/IntegrationConfig.java:64 | Its contract is carried by `RunAppend`, `RunCounter`, `Composed`, `ZeroReadingSilences` and `RunBuffered`. |
| Composition.StampNonZero | weather/src/main/java/com/sda/weather/IntegrationConfig.java:35 | Polls 2 through 2^32 carry a non-zero stamp, so they are duplicated. |
| Composition.RunCounter | weather/src/main/java/com/sda/weather/IntegrationConfig.java:31-35 | After n polls, failed or not, the counter has advanced by n, modulo 2^32. |
| Composition.StampsDistinct | weather/src/main/java/com/sda/weather/IntegrationConfig.java:31-35 | No stamp repeats within 2^32 polls, and stamps increase over the first 2^31 polls. |
| Composition.RunWithAppend | weather/src/main/java/com/sda/weather/IntegrationConfig.java:64 | Whatever one poll does, running polls a then b equals running a + b. |
| Composition.RunAppend | weather/src/main/java/com/sda/weather/IntegrationConfig.java:64-73 | Running the flow on a + b equals running it on a, then on b from the state a left. |
| Composition.FirstTick | weather/src/main/java/com/sda/weather/IntegrationConfig.java:57-58 | The first poll releases and mails nothing. Its group holds the first reading, stamped 0, and the counter moves to 1. |
| Composition.TickInPhase | weather/src/main/java/com/sda/weather/IntegrationConfig.java:57-71 | With the previous reading buffered, a poll releases exactly the metric of (previous, current) and mails exactly what that metric gives. The new reading ends up buffered. At a previous temperature of 0 the poll fails and the group is dropped. |
| Composition.TickOutOfPhase | weather/src/main/java/com/sda/weather/IntegrationConfig.java:57-71 | With no group open, both copies of a reading form a group that is released at once. It compares the reading with itself, and nothing is mailed. |
| Composition.RunInPhaseStore | weather/src/main/java/com/sda/weather/IntegrationConfig.java:57-71 | After each poll in phase, the location's group holds exactly the latest reading, stamped with its poll number. |
| Composition.RunInPhaseNotes | weather/src/main/java/com/sda/weather/IntegrationConfig.java:57-73 | Polls in phase mail exactly what the metrics of consecutive reading pairs give. |
| Composition.FirstThenRest | weather/src/main/java/com/sda/weather/IntegrationConfig.java:57-58 | A run from the start is the first poll, which mails nothing, then the rest of the run. |
| Composition.Composed | weather/src/main/java/com/sda/weather/IntegrationConfig.java:31-73 | From the start, readings for one location with no 0 before the last are mailed about exactly per the metrics of consecutive pairs. The group ends holding the last reading, stamped with its poll number. |
| Composition.PollReleasesPair | weather/src/main/java/com/sda/weather/IntegrationConfig.java:31-73 | In phase, poll n >= 1 releases exactly one result, the metric from reading n - 1 to reading n (mailed or not), notifies exactly for a passing metric, and fails exactly when reading n - 1 was at 0 degrees. |
| Composition.SilentOutOfPhase | weather/src/main/java/com/sda/weather/IntegrationConfig.java:57-71 | Once a location is out of phase it stays so, and nothing is mailed for it again. |
| Composition.ZeroBufferedSilences | weather/src/main/java/com/sda/weather/IntegrationConfig.java:46 | With a reading at 0 degrees buffered at any non-zero counter, no later poll mails anything until the stamp returns to 0. |
| Composition.ZeroThenRest | weather/src/main/java/com/sda/weather/IntegrationConfig.java:46 | If readings a end at 0 degrees, then only the pairs of a are mailed about, whatever follows. |
| Composition.ZeroReadingSilences | weather/src/main/java/com/sda/weather/IntegrationConfig.java:46 | A reading at 0 degrees ends all mailing: only the pairs up to that reading are ever mailed about. |
| Composition.RunBuffered | weather/src/main/java/com/sda/weather/IntegrationConfig.java:69-70 | Between polls every group holds one message filed under its own key, so no group exceeds two. |
| WeatherChecker.WeatherFlow.constructor | weather/src/main/java/com/sda/weather/IntegrationConfig.java:31 | The flow starts with the counter at 0 and no group open. |
| WeatherChecker.WeatherFlow.Poll | weather/src/main/java/com/sda/weather/IntegrationConfig.java:33-36 | The reading is stamped with the old counter, and the counter advances by one with 32-bit wrap-around. |
| WeatherChecker.WeatherFlow.Aggregate | weather/src/main/java/com/sda/weather/IntegrationConfig.java:66-71 | The group store and the released result are the aggregator step's, applied in place, and every group stays at one message between messages. |
| WeatherChecker.WeatherFlow.Tick | weather/src/main/java/com/sda/weather/IntegrationConfig.java:64-73 | The loop over the split copies leaves the counter, the group store, the notifications and the failure exactly as `TickStep` gives them. It keeps every group at one message. |

## Left out

- The weather fetch (`WeatherService.getWeather`, line 34) is a call into code that is not part of this model. Each reading is a parameter of `Tick` instead. The `Weather` class is not part of this model either: only its location name and temperature are modelled.
- The poller's fixed delay of 2000 ms (line 64) and the atomicity of `AtomicInteger` are left out, because they concern scheduling and concurrency. Polls are modelled as sequential, and the counter is a plain field.
- Mail headers and the SMTP outbound adapter (lines 74-81) are network I/O. The model stops at the formatted text.
- Every mail send is assumed to succeed. The SMTP adapter (lines 78-81) is a synchronous subscriber on the same chain. A send that throws, for example on a rejected login, would propagate back through the aggregator and the splitter's loop, like a division by zero. The second copy of that poll would not be delivered, the group would already be removed, and the location would go out of phase and fall silent (see `TickOutOfPhase` and `SilentOutOfPhase`).
- Stages.Feed: a passing metric always yields its notification; a failed send, which would stop the feed like a failed reduction, is not modelled.
- Composition.Composed: the notifications are exactly those of the consecutive pairs only on the assumption that every send succeeds.
- Composition.RunInPhaseNotes: holds only on the assumption that every send succeeds.
- Composition.RunInPhaseStore: holds only on the assumption that every send succeeds; a failed send would empty the group.
- `SecurityConfig.java`, the admin controller and the `WeatherCheck` entity of the other service are not modelled. They hold configuration and persistence glue, not flow logic.
- Spring Integration's own code is not part of this model. Its behaviour is modelled as follows:
  - `MessageCountReleaseStrategy(2)` releases at size >= 2.
  - `expireGroupsUponCompletion` removes a released group, and so does a group processor that throws.
  - An exception from the group processor propagates synchronously back through the splitter.
  - The poller logs the error and polls again.
- The group processor's `new ArrayList<>(messageGroup.getMessages())` is taken to list messages in arrival order.
- Composed: stated for fewer than 2^31 polls, so the counter never wraps.
- PollReleasesPair: stated for fewer than 2^31 polls, so the counter never wraps, and only after earlier polls whose sends all succeeded.
- RunInPhaseStore: stated for fewer than 2^31 polls, so the counter never wraps.
- RunInPhaseNotes: stated for fewer than 2^31 polls, so the counter never wraps.
- ZeroReadingSilences: stated for fewer than 2^31 polls, so the counter never wraps.
- ZeroThenRest: stated for fewer than 2^31 polls, so the counter never wraps.
- SilentOutOfPhase: stated within 2^32 polls. After that, the stamp 0 returns and a single message would open a group again.
- ZeroBufferedSilences: stated from any non-zero counter until the stamp returns to 0 (within 2^32 polls), for the same reason.
- WeatherChecker.WeatherFlow.Tick: returns the notifications and the failure, but not the released metrics. Those appear only in the specification function `TickStep`.

=== FILE: composition.dfy ===
/** What the chain of stages guarantees as a whole. The first reading is emitted once and every
    later one twice, and a group is released as soon as it holds two messages. So, as long as no
    earlier reading was at 0 degrees and the counter has not wrapped, after each poll the
    location's group holds exactly the latest reading, and every poll after the first releases
    exactly one metric: the change from the previous reading to the current one. A reading at
    0 degrees, or the wrap of the counter, breaks this phase; the lemmas below say what follows. */
module Composition {
  import opened JavaInt
  import opened Stages

  /** Every reading was fetched for the same location. */
  predicate AllAt(ws: seq<Reading>, loc: string) {
    forall i :: 0 <= i < |ws| ==> ws[i].locationName == loc
  }

  /** No reading but possibly the last one is at 0 degrees. */
  predicate NonZeroBeforeLast(ws: seq<Reading>) {
    forall i :: 0 <= i < |ws| - 1 ==> ws[i].temperature != 0
  }

  /** The reductions the composed flow should release: one per pair of consecutive readings. */
  function PairwiseMetrics(ws: seq<Reading>): (r: seq<Result<Int32>>)
    ensures |r| == if |ws| < 2 then 0 else |ws| - 1
    decreases |ws|
  {
    if |ws| < 2 then []
    else [ChangeMetric(ws[0].temperature, ws[1].temperature)] + PairwiseMetrics(ws[1..])
  }

  /** The stamp of every poll from the 2nd to the 2^32-th is non-zero, so it is duplicated. */
  lemma StampNonZero(n: int)
    requires 1 <= n < MODULUS
    ensures Wrap(n) != 0
  {
    WrapZeroIff(n);
  }

  /** The counter after a run: advanced by one per poll, failed or not, wrapping at 32 bits. */
  lemma {:induction false} RunCounter(s: FlowState, ws: seq<Reading>)
    ensures Run(s, ws).state.counter == Wrap(s.counter + |ws|)
    decreases |ws|
  {
    if |ws| == 0 {
    } else {
      var t := TickStep(s, ws[0]);
      RunCounter(t.state, ws[1..]);
      WrapModulo(s.counter + 1);
      WrapCongruent(Wrap(s.counter + 1) + |ws[1..]|, s.counter + |ws|);
    }
  }

  /** Counter values are never reused within 2^32 polls, and increase over the first 2^31. */
  lemma StampsDistinct(i: int, j: int)
    requires 0 <= i < j < MODULUS
    ensures Wrap(i) != Wrap(j)
    ensures j <= MAX ==> Wrap(i) < Wrap(j)
  {
    if Wrap(i) == Wrap(j) {
      WrapModulo(i);
      WrapModulo(j);
      WrapZeroIff(j - i);
      WrapCongruent(j - i, Wrap(j) - Wrap(i));
    }
  }

  /** One poll, then the rest of the run. */
  lemma RunStep(s: FlowState, ws: seq<Reading>)
    requires |ws| > 0
    ensures var t := TickStep(s, ws[0]); var rest := Run(t.state, ws[1..]);
      Run(s, ws) == RunResult(rest.state, t.notes + rest.notes)
  {
  }

  /** Running polls a + b is running a, then b from where a left off, whatever each poll does. */
  lemma {:induction false} RunWithAppend(step: (FlowState, Reading) -> TickResult, s: FlowState,
                                         a: seq<Reading>, b: seq<Reading>)
    ensures var ra := RunWith(step, s, a); var rb := RunWith(step, ra.state, b);
      RunWith(step, s, a + b) == RunResult(rb.state, ra.notes + rb.notes)
    decreases |a|
  {
    if |a| == 0 {
      assert a + b == b;
    } else {
      var ab := a + b;
      assert ab[0] == a[0] && ab[1..] == a[1..] + b;
      var t := step(s, a[0]);
      RunWithAppend(step, t.state, a[1..], b);
      var rest := RunWith(step, t.state, a[1..]);
      var rb := RunWith(step, rest.state, b);
      assert t.notes + (rest.notes + rb.notes) == (t.notes + rest.notes) + rb.notes;
    }
  }

  /** Running the flow on a + b is running it on a, then on b from where a left off. */
  lemma RunAppend(s: FlowState, a: seq<Reading>, b: seq<Reading>)
    ensures var ra := Run(s, a); var rb := Run(ra.state, b);
      Run(s, a + b) == RunResult(rb.state, ra.notes + rb.notes)
  {
    RunWithAppend(TickStep, s, a, b);
  }

  /** What the stages after the splitter make of one release (or none). */
  function AfterRelease(step: Step): Outcome {
    match step.released
    case None => Outcome(step.store, [], [], None)
    case Some(Err(f)) => Outcome(step.store, [Err(f)], [], Some(f))
    case Some(Ok(metric)) => Outcome(step.store, [Ok(metric)], Notify(metric), None)
  }

  lemma FeedSingle(store: Store, m: Message)
    ensures Feed(store, [m]) == AfterRelease(AggregateStep(store, m))
  {
    var step := AggregateStep(store, m);
    assert [m][1..] == [];
    assert Feed(step.store, []) == Outcome(step.store, [], [], None);
  }

  /** A reading with two copies where the first releases a group: the second opens a new one. */
  lemma FeedPairReleasing(store: Store, m: Message)
    requires AggregateStep(store, m).released.Some?
    ensures var first := AggregateStep(store, m);
      var second := AggregateStep(first.store, m);
      var r := first.released.value;
      Feed(store, [m, m]) ==
        if r.Err? then Outcome(first.store, [r], [], Some(r.failure))
        else Outcome(second.store, [r] + AfterRelease(second).released,
                     Notify(r.value) + AfterRelease(second).notes, AfterRelease(second).failure)
  {
    var first := AggregateStep(store, m);
    assert [m, m][1..] == [m];
    FeedSingle(first.store, m);
  }

  /** A reading with two copies where the first releases nothing: the second is fed on. */
  lemma FeedPairOpening(store: Store, m: Message)
    requires AggregateStep(store, m).released.None?
    ensures Feed(store, [m, m]) == AfterRelease(AggregateStep(AggregateStep(store, m).store, m))
  {
    var first := AggregateStep(store, m);
    assert [m, m][1..] == [m];
    FeedSingle(first.store, m);
  }

  /** The first poll (stamp 0) is not duplicated: it opens the location's group and releases nothing. */
  lemma FirstTick(w: Reading)
    ensures TickStep(Initial(), w)
      == TickResult(FlowState(1, map[w.locationName := [Message(w, 0)]]), [], [], None)
  {
    var m := Message(w, 0);
    assert Split(m) == [m];
    FeedSingle(map[], m);
    assert Wrap(0 + 1) == 1;
  }

  /** A later poll in phase: the group holds the previous message; the first copy completes it
      with the new reading, and the second copy opens a group holding only the new reading. A
      previous reading at 0 degrees fails instead; the group is dropped with the second copy. */
  lemma TickInPhase(s: FlowState, prev: Message, w: Reading)
    requires s.store == map[w.locationName := [prev]]
    requires prev.payload.locationName == w.locationName
    requires s.counter != 0
    ensures var t := TickStep(s, w);
      var metric := ChangeMetric(prev.payload.temperature, w.temperature);
      t.released == [metric]
      && t.notes == NotesOf([metric])
      && (t.failure.Some? <==> prev.payload.temperature == 0)
      && t.state.counter == Wrap(s.counter + 1)
      && t.state.store == if metric.Err? then map[] else map[w.locationName := [Message(w, s.counter)]]
  {
    var m := Message(w, s.counter);
    var k := w.locationName;
    assert Split(m) == [m, m];
    var first := AggregateStep(s.store, m);
    assert s.store.Keys == {k};
    assert first.store == map[];
    assert first.released == Some(ChangeMetric(prev.payload.temperature, w.temperature));
    FeedPairReleasing(s.store, m);
    var second := AggregateStep(first.store, m);
    assert second.store == map[k := [m]] && second.released == None;
    var metric := first.released.value;
    assert NotesOf([metric]) == (match metric case Ok(x) => Notify(x) case Err(_) => []) + NotesOf([]);
  }

  /** The first poll of a run in phase leaves the new reading, stamped n, as the location's only
      buffered message. */
  lemma RunInPhaseHead(s: FlowState, prev: Message, ws: seq<Reading>, n: int)
    requires |ws| > 0 && ws[0].locationName == prev.payload.locationName
    requires s.store == map[prev.payload.locationName := [prev]]
    requires 1 <= n < MAX && s.counter == n
    requires prev.payload.temperature != 0
    ensures var s1 := FlowState(n + 1, map[prev.payload.locationName := [Message(ws[0], n)]]);
      Run(s, ws).state == Run(s1, ws[1..]).state
  {
    TickInPhase(s, prev, ws[0]);
    RunStep(s, ws);
  }

  /** The first poll of a run in phase mails about the previous and the new reading. */
  lemma RunInPhaseHeadNotes(s: FlowState, prev: Message, ws: seq<Reading>, n: int)
    requires |ws| > 0 && ws[0].locationName == prev.payload.locationName
    requires s.store == map[prev.payload.locationName := [prev]]
    requires 1 <= n < MAX && s.counter == n
    requires prev.payload.temperature != 0
    ensures var s1 := FlowState(n + 1, map[prev.payload.locationName := [Message(ws[0], n)]]);
      Run(s, ws).notes
        == NotesOf([ChangeMetric(prev.payload.temperature, ws[0].temperature)]) + Run(s1, ws[1..]).notes
  {
    TickInPhase(s, prev, ws[0]);
    RunStep(s, ws);
  }

  lemma HeadTail(ws: seq<Reading>)
    requires |ws| > 0
    ensures [ws[0]] + ws[1..] == ws
  {
  }

  /** Every reading of ws but the last is non-zero when prev and ws together are. */
  lemma NonZeroTail(prev: Reading, ws: seq<Reading>)
    requires NonZeroBeforeLast([prev] + ws)
    ensures NonZeroBeforeLast(ws)
  {
    forall i | 0 <= i < |ws| - 1 ensures ws[i].temperature != 0 {
      assert ws[i] == ([prev] + ws)[i + 1];
    }
  }

  /** The composition invariant on the store, from any poll in phase onwards: after each poll
      the location's group holds exactly the latest reading, stamped with its poll number. */
  lemma {:induction false} RunInPhaseStore(s: FlowState, prev: Message, ws: seq<Reading>, n: int)
    requires |ws| > 0 && AllAt(ws, prev.payload.locationName)
    requires s.store == map[prev.payload.locationName := [prev]]
    requires 1 <= n && n + |ws| <= MAX && s.counter == n
    requires NonZeroBeforeLast([prev.payload] + ws)
    ensures Run(s, ws).state
      == FlowState(n + |ws|, map[prev.payload.locationName := [Message(ws[|ws| - 1], n + |ws| - 1)]])
    decreases |ws|
  {
    var loc := prev.payload.locationName;
    var next := Message(ws[0], n);
    var s1 := FlowState(n + 1, map[loc := [next]]);
    var tail := ws[1..];
    assert ([prev.payload] + ws)[0] == prev.payload;
    assert next.payload.locationName == loc;
    RunInPhaseHead(s, prev, ws, n);
    if |tail| == 0 {
      assert Run(s1, tail).state == s1;
    } else {
      HeadTail(ws);
      NonZeroTail(prev.payload, ws);
      RunInPhaseStore(s1, next, tail, n + 1);
      assert tail[|tail| - 1] == ws[|ws| - 1];
    }
  }

  /** The composition invariant on the notifications: a run in phase releases one metric per pair
      of consecutive readings, starting with the buffered one and the first new one. */
  lemma {:induction false} RunInPhaseNotes(s: FlowState, prev: Message, ws: seq<Reading>, n: int)
    requires AllAt(ws, prev.payload.locationName)
    requires s.store == map[prev.payload.locationName := [prev]]
    requires 1 <= n && n + |ws| <= MAX && s.counter == n
    requires NonZeroBeforeLast([prev.payload] + ws)
    ensures Run(s, ws).notes == NotesOf(PairwiseMetrics([prev.payload] + ws))
    decreases |ws|
  {
    var all := [prev.payload] + ws;
    if |ws| == 0 {
      assert all == [prev.payload];
    } else {
      var loc := prev.payload.locationName;
      assert all[0] == prev.payload && all[1..] == ws;
      RunInPhaseHeadNotes(s, prev, ws, n);
      var next := Message(ws[0], n);
      var s1 := FlowState(n + 1, map[loc := [next]]);
      var tail := ws[1..];
      HeadTail(ws);
      NonZeroTail(prev.payload, ws);
      RunInPhaseNotes(s1, next, tail, n + 1);
      var metric := ChangeMetric(prev.payload.temperature, ws[0].temperature);
      assert PairwiseMetrics(all) == [metric] + PairwiseMetrics(ws);
      NotesOfAppend([metric], PairwiseMetrics(ws));
    }
  }

  /** A run from the start is the first poll, which mails nothing, then the rest from the state
      it leaves. */
  lemma FirstThenRest(w: Reading, tail: seq<Reading>)
    ensures Run(Initial(), [w] + tail) == Run(FlowState(1, map[w.locationName := [Message(w, 0)]]), tail)
  {
    var ws := [w] + tail;
    assert ws[0] == w && ws[1..] == tail;
    FirstTick(w);
    RunStep(Initial(), ws);
  }

  /** After the first poll, which opens the group with w stamped 0, the rest of the run
      releases the consecutive-pair metrics of w and the readings after it. */
  lemma AfterFirstNotes(w: Reading, tail: seq<Reading>)
    requires 1 + |tail| <= MAX
    requires AllAt(tail, w.locationName)
    requires NonZeroBeforeLast([w] + tail)
    ensures Run(FlowState(1, map[w.locationName := [Message(w, 0)]]), tail).notes
      == NotesOf(PairwiseMetrics([w] + tail))
  {
    RunInPhaseNotes(FlowState(1, map[w.locationName := [Message(w, 0)]]), Message(w, 0), tail, 1);
  }

  /** After the first poll the rest of the run leaves the last reading buffered, stamped with its
      poll number. */
  lemma AfterFirstStore(w: Reading, tail: seq<Reading>)
    requires 1 + |tail| <= MAX
    requires AllAt(tail, w.locationName)
    requires NonZeroBeforeLast([w] + tail)
    requires |tail| > 0
    ensures Run(FlowState(1, map[w.locationName := [Message(w, 0)]]), tail).state
      == FlowState(1 + |tail|, map[w.locationName := [Message(tail[|tail| - 1], |tail|)]])
  {
    RunInPhaseStore(FlowState(1, map[w.locationName := [Message(w, 0)]]), Message(w, 0), tail, 1);
  }

  /** The composition theorem, from the flow's start: for a first reading w followed by the
      readings tail, all answered for one location, with no reading at 0 degrees before the last
      (and fewer than 2^31 polls, so the counter does not wrap), the notifications are those of
      the consecutive-pair metrics (poll n >= 1 compares reading n - 1 with reading n), and the
      group ends up holding exactly the last reading, stamped with its poll number. */
  lemma Composed(w: Reading, tail: seq<Reading>)
    requires 1 + |tail| <= MAX
    requires AllAt(tail, w.locationName)
    requires NonZeroBeforeLast([w] + tail)
    ensures Run(Initial(), [w] + tail).notes == NotesOf(PairwiseMetrics([w] + tail))
    ensures Run(Initial(), [w] + tail).state
      == FlowState(1 + |tail|, map[w.locationName := [Message(([w] + tail)[|tail|], |tail|)]])
  {
    FirstThenRest(w, tail);
    AfterFirstNotes(w, tail);
    if |tail| > 0 {
      assert tail[|tail| - 1] == ([w] + tail)[|tail|];
      AfterFirstStore(w, tail);
    }
  }

  /** Out of phase: with no group open for the location, both copies of a reading land in one
      group, which is released at once and compares the reading with itself: metric 0, no mail. */
  lemma TickOutOfPhase(s: FlowState, w: Reading)
    requires w.locationName !in s.store
    requires s.counter != 0
    ensures var t := TickStep(s, w);
      t.released == [ChangeMetric(w.temperature, w.temperature)]
      && t.notes == []
      && w.locationName !in t.state.store
  {
    var m := Message(w, s.counter);
    assert Split(m) == [m, m];
    var first := AggregateStep(s.store, m);
    assert first.released == None && first.store == s.store[w.locationName := [m]];
    FeedPairOpening(s.store, m);
    var second := AggregateStep(first.store, m);
    assert second.store == s.store && second.released == Some(TemperatureDiff([m, m]));
    if w.temperature != 0 {
      SelfPairIsZero(m);
      assert !Passes(0);
    }
  }

  /** Once out of phase the location stays out of phase, and nothing is ever mailed again
      (within 2^32 polls, while the stamps stay non-zero). */
  lemma {:induction false} SilentOutOfPhase(s: FlowState, ws: seq<Reading>, loc: string, n: int)
    requires AllAt(ws, loc) && loc !in s.store
    requires 1 <= n && n + |ws| <= MODULUS && s.counter == Wrap(n)
    ensures Run(s, ws).notes == [] && loc !in Run(s, ws).state.store
    decreases |ws|
  {
    if |ws| > 0 {
      StampNonZero(n);
      TickOutOfPhase(s, ws[0]);
      var t := TickStep(s, ws[0]);
      WrapIncrement(n);
      SilentOutOfPhase(t.state, ws[1..], loc, n + 1);
    }
  }

  /** With a reading at 0 degrees buffered, the flow never mails again: the next poll fails with a
      division by zero, which drops the open group together with the undelivered second copy, and
      from then on every poll releases a reading compared with itself (within 2^32 polls). */
  lemma ZeroBufferedSilences(s: FlowState, prev: Message, ws: seq<Reading>, n: int)
    requires |ws| > 0 && AllAt(ws, prev.payload.locationName)
    requires s.store == map[prev.payload.locationName := [prev]] && prev.payload.temperature == 0
    requires 1 <= n && n + |ws| <= MODULUS && s.counter == Wrap(n)
    ensures Run(s, ws).notes == []
  {
    var loc := prev.payload.locationName;
    assert ws[0].locationName == loc;
    assert AllAt(ws[1..], loc);
    StampNonZero(n);
    TickInPhase(s, prev, ws[0]);
    var t := TickStep(s, ws[0]);
    assert NotesOf([Err(DivideByZero)]) == [];
    RunStep(s, ws);
    WrapIncrement(n);
    SilentOutOfPhase(t.state, ws[1..], loc, n + 1);
  }

  lemma AllAtSlice(ws: seq<Reading>, loc: string, i: nat, j: nat)
    requires i <= j <= |ws| && AllAt(ws, loc)
    ensures AllAt(ws[i..j], loc)
  {
    assert forall k :: 0 <= k < j - i ==> ws[i..j][k] == ws[i + k];
  }

  /** A first reading w and readings tail (all non-zero but the last, which is 0), followed by
      readings b: only the pairs before b are ever mailed about. */
  lemma ZeroThenRest(w: Reading, tail: seq<Reading>, b: seq<Reading>)
    requires |b| > 0 && 1 + |tail| + |b| <= MAX
    requires AllAt(tail, w.locationName) && AllAt(b, w.locationName)
    requires NonZeroBeforeLast([w] + tail) && ([w] + tail)[|tail|].temperature == 0
    ensures Run(Initial(), [w] + tail + b).notes == NotesOf(PairwiseMetrics([w] + tail))
  {
    var a := [w] + tail;
    Composed(w, tail);
    var ra := Run(Initial(), a);
    ZeroBufferedSilences(ra.state, Message(a[|tail|], |tail|), b, |a|);
    RunAppend(Initial(), a, b);
  }

  /** The composition theorem one poll at a time: in phase, poll n >= 1 releases exactly one
      result, the metric from reading n - 1 to reading n, whether or not the filter then mails
      it, and a failure exactly when reading n - 1 was at 0 degrees. */
  lemma PollReleasesPair(ws: seq<Reading>, n: nat)
    requires 1 <= n < |ws| <= MAX
    requires AllAt(ws, ws[0].locationName)
    requires NonZeroBeforeLast(ws[..n])
    ensures var t := TickStep(Run(Initial(), ws[..n]).state, ws[n]);
      var metric := ChangeMetric(ws[n - 1].temperature, ws[n].temperature);
      t.released == [metric]
      && t.notes == (if metric.Ok? then Notify(metric.value) else [])
      && (t.failure.Some? <==> ws[n - 1].temperature == 0)
  {
    var w, tail := ws[0], ws[1..n];
    assert ws[..n] == [w] + tail;
    assert ([w] + tail)[|tail|] == ws[n - 1];
    AllAtSlice(ws, w.locationName, 1, n);
    Composed(w, tail);
    var s := Run(Initial(), ws[..n]).state;
    var metric := ChangeMetric(ws[n - 1].temperature, ws[n].temperature);
    TickInPhase(s, Message(ws[n - 1], |tail|), ws[n]);
    assert NotesOf([metric]) == (if metric.Ok? then Notify(metric.value) else []) + NotesOf([]);
  }

  /** A single reading at 0 degrees silences the flow for good: only the pairs up to the zero
      reading are ever mailed about. */
  lemma ZeroReadingSilences(ws: seq<Reading>, j: nat)
    requires j + 1 < |ws| <= MAX
    requires AllAt(ws, ws[0].locationName)
    requires NonZeroBeforeLast(ws[..j + 1]) && ws[j].temperature == 0
    ensures Run(Initial(), ws).notes == NotesOf(PairwiseMetrics(ws[..j + 1]))
  {
    var w, tail, b := ws[0], ws[1..j + 1], ws[j + 1..];
    assert ws[..j + 1] == [w] + tail;
    assert ([w] + tail)[|tail|] == ws[j];
    assert ws == [w] + tail + b;
    AllAtSlice(ws, w.locationName, 1, j + 1);
    AllAtSlice(ws, w.locationName, j + 1, |ws|);
    ZeroThenRest(w, tail, b);
  }

  /** Between polls no group ever holds more than one message, so none ever exceeds two. */
  lemma {:induction false} RunBuffered(s: FlowState, ws: seq<Reading>)
    requires Buffered(s.store)
    ensures Buffered(Run(s, ws).state.store)
    decreases |ws|
  {
    if |ws| > 0 {
      FeedBuffered(s.store, Split(Message(ws[0], s.counter)));
      RunBuffered(TickStep(s, ws[0]).state, ws[1..]);
    }
  }
}

=== FILE: decimal.dfy ===
/** Decimal rendering of an `int`, as Java's string concatenation `"..." + n` produces it
    (Integer.toString: an optional '-' followed by the digits of the magnitude, no leading zeros),
    and the reading back that shows the rendering loses nothing. */
module Decimal {

  predicate IsDigit(c: char) {
    '0' <= c <= '9'
  }

  predicate AllDigits(s: string) {
    forall i :: 0 <= i < |s| ==> IsDigit(s[i])
  }

  function DigitChar(d: nat): (c: char)
    requires d < 10
    ensures IsDigit(c)
  {
    "0123456789"[d]
  }

  /** The value of a digit character (0 for any other character). */
  function DigitValue(c: char): nat {
    if IsDigit(c) then (c as int - '0' as int) as nat else 0
  }

  /** The digits of n, most significant first, without leading zeros. */
  function NatToString(n: nat): (s: string)
    ensures |s| >= 1 && AllDigits(s)
    ensures |s| > 1 ==> s[0] != '0'
  {
    if n < 10 then [DigitChar(n)] else NatToString(n / 10) + [DigitChar(n % 10)]
  }

  /** Integer.toString: '-' exactly for negative values, then the magnitude's digits. */
  function IntToString(n: int): (s: string)
    ensures |s| >= 1
    ensures s[0] == '-' <==> n < 0
    ensures n < 0 ==> |s| >= 2 && AllDigits(s[1..])
    ensures n >= 0 ==> AllDigits(s)
    ensures n < 0 ==> s[1] != '0'
    ensures n >= 0 && |s| > 1 ==> s[0] != '0'
  {
    if n < 0 then "-" + NatToString(-n) else NatToString(n)
  }

  /** The value of a string of decimal digits. */
  function ParseNat(s: string): nat {
    if |s| == 0 then 0 else 10 * ParseNat(s[..|s| - 1]) + DigitValue(s[|s| - 1])
  }

  /** The value of an optional '-' followed by decimal digits. */
  function ParseInt(s: string): int {
    if |s| > 0 && s[0] == '-' then -(ParseNat(s[1..]) as int) else ParseNat(s)
  }

  lemma {:induction false} NatRoundTrip(n: nat)
    ensures ParseNat(NatToString(n)) == n
  {
    if n >= 10 {
      var s := NatToString(n);
      assert s[..|s| - 1] == NatToString(n / 10);
      NatRoundTrip(n / 10);
    }
  }

  /** Reading the rendering back gives the value: the notification text determines the metric. */
  lemma IntRoundTrip(n: int)
    ensures ParseInt(IntToString(n)) == n
  {
    if n < 0 {
      NegRoundTrip(n);
    } else {
      PosRoundTrip(n);
    }
  }

  lemma PosRoundTrip(n: nat)
    ensures ParseInt(IntToString(n)) == n
  {
    var s := NatToString(n);
    assert IntToString(n) == s;
    assert s[0] != '-';
    NatRoundTrip(n);
  }

  lemma NegRoundTrip(n: int)
    requires n < 0
    ensures ParseInt(IntToString(n)) == n
  {
    var d := NatToString(-n);
    NatRoundTrip(-n);
    assert ("-" + d)[1..] == d;
    ParseNegative("-" + d, -n);
  }

  lemma ParseNegative(t: string, m: nat)
    requires |t| > 0 && t[0] == '-' && ParseNat(t[1..]) == m
    ensures ParseInt(t) == -(m as int)
  {
  }
}

=== FILE: java_int.dfy ===
/** Java's 32-bit `int` arithmetic, written out over Dafny's unbounded integers:
    two's-complement wrap-around, division truncating toward zero and `Math.abs`. */
module JavaInt {

  const MIN: int := -0x8000_0000
  const MAX: int := 0x7FFF_FFFF
  const MODULUS: int := 0x1_0000_0000

  /** The values of a Java `int`. */
  type Int32 = x: int | -0x8000_0000 <= x < 0x8000_0000

  function AbsInt(x: int): int {
    if x < 0 then -x else x
  }

  /** The `int` a mathematical result becomes in Java (two's-complement truncation to 32 bits):
      add or subtract 2^32 until the value fits. */
  function Wrap(x: int): (r: Int32)
    ensures MIN <= x <= MAX ==> r == x
    decreases if x > MAX then x - MAX else if x < MIN then MIN - x else 0
  {
    if x > MAX then Wrap(x - MODULUS)
    else if x < MIN then Wrap(x + MODULUS)
    else x
  }

  /** Wrap changes its argument by a multiple of 2^32. */
  lemma {:induction false} WrapModulo(x: int)
    ensures (Wrap(x) - x) % MODULUS == 0
    decreases if x > MAX then x - MAX else if x < MIN then MIN - x else 0
  {
    if x > MAX {
      WrapModulo(x - MODULUS);
      ModAddMultiple(Wrap(x) - x, 1);
    } else if x < MIN {
      WrapModulo(x + MODULUS);
      ModAddMultiple(Wrap(x) - x, -1);
    }
  }

  lemma ModAddMultiple(y: int, k: int)
    ensures (y + k * MODULUS) % MODULUS == y % MODULUS
  {
  }

  /** A multiple of 2^32 strictly between -2^32 and 2^32 is 0. */
  lemma SmallMultiple(d: int)
    requires d % MODULUS == 0 && -MODULUS < d < MODULUS
    ensures d == 0
  {
    assert d == (d / MODULUS) * MODULUS;
  }

  /** Wrap is the unique `int` congruent to its argument: values congruent modulo 2^32 wrap alike. */
  lemma WrapCongruent(x: int, y: int)
    requires (x - y) % MODULUS == 0
    ensures Wrap(x) == Wrap(y)
  {
    WrapModulo(x);
    WrapModulo(y);
    var a, b, c := Wrap(x) - x, Wrap(y) - y, x - y;
    assert a == (a / MODULUS) * MODULUS && b == (b / MODULUS) * MODULUS && c == (c / MODULUS) * MODULUS;
    var d := Wrap(x) - Wrap(y);
    assert d == (a / MODULUS - b / MODULUS + c / MODULUS) * MODULUS;
    ModAddMultiple(0, a / MODULUS - b / MODULUS + c / MODULUS);
    SmallMultiple(d);
  }

  /** Incrementing a wrapped value is the same as wrapping the increment:
      `AtomicInteger.getAndIncrement` applied n times to 0 leaves `Wrap(n)`. */
  lemma WrapIncrement(n: int)
    ensures Wrap(Wrap(n) + 1) == Wrap(n + 1)
  {
    WrapModulo(n);
    WrapCongruent(Wrap(n) + 1, n + 1);
  }

  /** Wrap is zero exactly on the multiples of 2^32; so counter values 1 .. 2^32 - 1 are never 0. */
  lemma WrapZeroIff(n: int)
    ensures Wrap(n) == 0 <==> n % MODULUS == 0
  {
    WrapModulo(n);
    if n % MODULUS == 0 {
      WrapCongruent(n, 0);
    }
    if Wrap(n) == 0 {
      var k := (-n) / MODULUS;
      assert -n == k * MODULUS;
      ModAddMultiple(0, -k);
    }
  }

  /** Integer quotient rounded toward zero: Java's `/` before any overflow. */
  function TruncDiv(a: int, b: int): int
    requires b != 0
  {
    if a >= 0 then
      (if b > 0 then NatDiv(a, b) else -NatDiv(a, -b))
    else
      (if b > 0 then -NatDiv(-a, b) else NatDiv(-a, -b))
  }

  /** Quotient of a non-negative dividend by a positive divisor. */
  function NatDiv(a: nat, d: int): int
    requires d > 0
  {
    a / d
  }

  lemma NatDivSpec(a: nat, d: int)
    requires d > 0
    ensures 0 <= a - NatDiv(a, d) * d < d
  {
    assert a == (a / d) * d + a % d;
  }

  /** The truncated quotient leaves a remainder that has the sign of the dividend and is smaller
      in magnitude than the divisor. */
  lemma TruncDivSpec(a: int, b: int)
    requires b != 0
    ensures a >= 0 ==> 0 <= a - TruncDiv(a, b) * b < AbsInt(b)
    ensures a < 0 ==> -AbsInt(b) < a - TruncDiv(a, b) * b <= 0
  {
    var x, d := AbsInt(a), AbsInt(b);
    var n := NatDiv(x, d);
    NatDivSpec(x, d);
    if a >= 0 && b > 0 {
      assert TruncDiv(a, b) == n;
    } else if a >= 0 {
      assert TruncDiv(a, b) * b == n * d;
    } else if b > 0 {
      assert TruncDiv(a, b) * b == -(n * d);
    } else {
      assert TruncDiv(a, b) * b == -(n * d);
    }
  }

  /** The truncated quotient is the only one whose remainder satisfies TruncDivSpec. */
  lemma TruncDivUnique(a: int, b: int, q: int)
    requires b != 0
    requires a >= 0 ==> 0 <= a - q * b < AbsInt(b)
    requires a < 0 ==> -AbsInt(b) < a - q * b <= 0
    ensures q == TruncDiv(a, b)
  {
    var p := TruncDiv(a, b);
    TruncDivSpec(a, b);
    var d := q - p;
    assert (a - p * b) - (a - q * b) == d * b;
    if d != 0 {
      AbsMul(d, b);
      assert false;
    }
  }

  lemma AbsMul(d: int, b: int)
    requires d != 0
    ensures AbsInt(d * b) >= AbsInt(b)
  {
    if d > 0 {
      if b >= 0 { assert d * b >= b; } else { assert d * b <= b; }
    } else {
      if b >= 0 { assert d * b <= -b; } else { assert d * b >= -b; }
    }
  }

  /** Dividing by at least 2 at least halves a non-negative dividend. */
  lemma NatDivHalves(x: nat, d: int)
    requires d >= 2
    ensures 2 * NatDiv(x, d) <= x
  {
    var q := NatDiv(x, d);
    NatDivSpec(x, d);
    assert q >= 0;
    assert q * d >= q * 2;
  }

  /** Every quotient of two `int`s fits in an `int`, except MIN / -1. */
  lemma TruncDivFits(a: Int32, b: Int32)
    requires b != 0
    requires !(a == MIN && b == -1)
    ensures MIN <= TruncDiv(a, b) <= MAX
  {
    if b == 1 {
      TruncDivUnique(a, b, a);
    } else if b == -1 {
      TruncDivUnique(a, b, -a);
    } else {
      NatDivHalves(AbsInt(a), AbsInt(b));
    }
  }

  /** Java's `a / b` on `int`: truncates toward zero, and the one quotient that does not fit,
      MIN / -1, wraps back to MIN. Division by zero throws, so b != 0 is the caller's duty. */
  function JavaDiv(a: Int32, b: Int32): (r: Int32)
    requires b != 0
    ensures !(a == MIN && b == -1) ==> r == TruncDiv(a, b)
    ensures a == MIN && b == -1 ==> r == MIN
  {
    if a == MIN && b == -1 then
      Wrap(TruncDiv(a, b))
    else
      TruncDivFits(a, b);
      Wrap(TruncDiv(a, b))
  }

  /** Java's `Math.abs` on `int`: non-negative except for MIN, whose negation does not fit. */
  function JavaAbs(x: Int32): (r: Int32)
    ensures x != MIN ==> r >= 0 && (r == x || r == -x)
    ensures x == MIN ==> r == MIN
  {
    if x < 0 then Wrap(-(x as int)) else x
  }
}

=== FILE: stages.dfy ===
/** The stages of the `weatherChecker` integration flow as pure functions: the message the
    poller stamps, the duplicating splitter, the correlation key, the aggregator's release rule
    over a keyed group store, the `temperatureDiff` reduction, the magnitude filter and the
    notification text; and one poll tick pushed through all of them. */
module Stages {
  import opened JavaInt
  import Decimal

  datatype Option<+T> = None | Some(value: T)

  /** The only failure of the chain: `(100 * diff) / oldTemp` with `oldTemp == 0`. */
  datatype Failure = DivideByZero

  datatype Result<+T> = Ok(value: T) | Err(failure: Failure)

  /** The payload fetched on each poll: the service's answer for one location. */
  datatype Reading = Reading(locationName: string, temperature: Int32)

  /** A reading with the "seq" header the poller stamps on it (seqNo). */
  datatype Message = Message(payload: Reading, seqNo: Int32)

  /** The aggregator's message store: the buffered group of each correlation key, in arrival order. */
  type Store = map<string, seq<Message>>

  /** The release threshold of the count-based release strategy. */
  const THRESHOLD: nat := 2

  /** The threshold of the magnitude filter. */
  const LIMIT: int := 5

  const PREFIX: string := "High temperature diff: "

  // ---------------------------------------------------------------- splitter

  /** The duplicating splitter: the message stamped 0 passes once, every other one twice. */
  function Split(m: Message): (r: seq<Message>)
    ensures |r| == (if m.seqNo == 0 then 1 else 2)
    ensures forall i :: 0 <= i < |r| ==> r[i] == m
  {
    if m.seqNo == 0 then [m] else [m, m]
  }

  // ---------------------------------------------------------------- correlation

  /** Messages are grouped by the location name of their payload. */
  function CorrelationKey(m: Message): string {
    m.payload.locationName
  }

  // ---------------------------------------------------------------- reduction

  /** The percentage change from oldTemp to newTemp in Java `int` arithmetic:
      `diff = newTemp - oldTemp; (100 * diff) / oldTemp`. */
  function ChangeMetric(oldTemp: Int32, newTemp: Int32): (r: Result<Int32>)
    ensures r.Err? <==> oldTemp == 0
  {
    if oldTemp == 0 then Err(DivideByZero)
    else
      var diff := Wrap(newTemp - oldTemp);
      Ok(JavaDiv(Wrap(100 * diff), oldTemp))
  }

  /** For temperatures within ten million degrees nothing overflows: the metric is the exact
      percentage change truncated toward zero, i.e. the unique q whose remainder
      100 * (newTemp - oldTemp) - q * oldTemp has the sign of the change and is smaller than oldTemp. */
  lemma ChangeMetricExact(oldTemp: Int32, newTemp: Int32)
    requires oldTemp != 0
    requires AbsInt(oldTemp) <= 10_000_000 && AbsInt(newTemp) <= 10_000_000
    ensures ChangeMetric(oldTemp, newTemp) == Ok(TruncDiv(100 * (newTemp - oldTemp), oldTemp))
  {
    var diff := newTemp - oldTemp;
    assert Wrap(diff) == diff;
    assert -2_000_000_000 <= 100 * diff <= 2_000_000_000;
    assert Wrap(100 * diff) == 100 * diff;
  }

  /** The group processor `temperatureDiff`: 0 for a group of fewer than two messages, otherwise
      the change from the first-arrived message's temperature to the second's. */
  function TemperatureDiff(group: seq<Message>): (r: Result<Int32>)
    ensures |group| < 2 ==> r == Ok(0)
    ensures |group| >= 2 ==> (r.Err? <==> group[0].payload.temperature == 0)
  {
    if |group| < 2 then Ok(0)
    else ChangeMetric(group[0].payload.temperature, group[1].payload.temperature)
  }

  /** A group made of two copies of one reading reduces to 0: nothing changed. */
  lemma SelfPairIsZero(m: Message)
    requires m.payload.temperature != 0
    ensures TemperatureDiff([m, m]) == Ok(0)
  {
    var t := m.payload.temperature;
    assert Wrap(t - t) == 0;
    assert Wrap(100 * 0) == 0;
    TruncDivUnique(0, t, 0);
  }

  // ---------------------------------------------------------------- filter and transform

  /** The filter `Math.abs(diff) > 5`: a metric outside [-5, 5] passes, except MIN,
      whose absolute value overflows back to a negative number. */
  function Passes(metric: Int32): (b: bool)
    ensures b <==> (metric > LIMIT || (metric < -LIMIT && metric != MIN))
  {
    JavaAbs(metric) > LIMIT
  }

  /** The transformer: the fixed prefix followed by the metric in decimal. */
  function Format(metric: Int32): string {
    PREFIX + Decimal.IntToString(metric)
  }

  /** The notification text starts with the prefix, and the metric can be read back from the rest. */
  lemma FormatSpec(metric: Int32)
    ensures var s := Format(metric);
      |s| > |PREFIX| && s[..|PREFIX|] == PREFIX
      && var tail := s[|PREFIX|..];
      |tail| >= 1 && (tail[0] == '-' ==> |tail| >= 2 && Decimal.AllDigits(tail[1..]))
      && (tail[0] != '-' ==> Decimal.AllDigits(tail)) && Decimal.ParseInt(tail) == metric
      && (tail[0] == '-' ==> tail[1] != '0') && (tail[0] != '-' && |tail| > 1 ==> tail[0] != '0')
  {
    Decimal.IntRoundTrip(metric);
    var s := Format(metric);
    assert s[|PREFIX|..] == Decimal.IntToString(metric);
  }

  /** Different metrics give different notification texts. */
  lemma FormatInjective(a: Int32, b: Int32)
    requires Format(a) == Format(b)
    ensures a == b
  {
    FormatSpec(a);
    FormatSpec(b);
    assert Format(a)[|PREFIX|..] == Format(b)[|PREFIX|..];
  }

  /** The notifications one released metric produces: one formatted mail if it passes the filter. */
  function Notify(metric: Int32): seq<string> {
    if Passes(metric) then [Format(metric)] else []
  }

  /** A metric is mailed iff it is outside [-5, 5] (and not MIN); what is mailed names it. */
  lemma NotifyIff(metric: Int32)
    ensures |Notify(metric)| <= 1
    ensures |Notify(metric)| == 1 <==> (metric > LIMIT || (metric < -LIMIT && metric != MIN))
    ensures -LIMIT <= metric <= LIMIT ==> Notify(metric) == []
    ensures Notify(metric) != [] ==> Notify(metric)[0][..|PREFIX|] == PREFIX
    ensures Notify(metric) != [] ==> Decimal.ParseInt(Notify(metric)[0][|PREFIX|..]) == metric
  {
    FormatSpec(metric);
  }

  // ---------------------------------------------------------------- aggregator

  /** Between messages every live group holds exactly one message, filed under its own key:
      a group is created by its first message and released by its second. */
  predicate Buffered(store: Store) {
    forall k :: k in store ==> |store[k]| == 1 && CorrelationKey(store[k][0]) == k
  }

  /** What the aggregator does with one message: the new store and, if the group was
      released, the result of reducing it. */
  datatype Step = Step(store: Store, released: Option<Result<Int32>>)

  /** Append m to its group (creating the group if absent); release the group as soon as it
      holds THRESHOLD messages, reduce it, and remove it from the store. */
  function AggregateStep(store: Store, m: Message): Step {
    var k := CorrelationKey(m);
    var group := if k in store then store[k] + [m] else [m];
    if |group| >= THRESHOLD then Step(store - {k}, Some(TemperatureDiff(group)))
    else Step(store[k := group], None)
  }

  /** What the aggregator does with any message, whatever the store holds: the message is filed
      under its location name; a group of THRESHOLD messages or more is released, reduced and
      removed, a smaller one is kept with the message appended; every other location's group is
      left as it was. */
  lemma AggregateStepSpec(store: Store, m: Message)
    ensures var r := AggregateStep(store, m); var k := m.payload.locationName;
      var group := (if k in store then store[k] else []) + [m];
      (r.released.Some? <==> |group| >= THRESHOLD)
      && (r.released.Some? ==> r.released.value == TemperatureDiff(group) && r.store == store - {k})
      && (r.released.None? ==> r.store == store[k := group])
      && (forall k' :: k' != k ==> (k' in r.store <==> k' in store) && (k' in store ==> r.store[k'] == store[k']))
  {
    var k := m.payload.locationName;
    if k !in store {
      assert [] + [m] == [m];
    }
  }

  /** On a buffered store the aggregator keeps every group at one message between messages: the
      second message of a key releases the pair, oldest first, and drops the group; the first
      opens it; the groups of other keys are untouched. */
  lemma AggregateStepBuffered(store: Store, m: Message)
    requires Buffered(store)
    ensures var r := AggregateStep(store, m); var k := CorrelationKey(m);
      Buffered(r.store)
      && (k in store ==> r.store == store - {k} && r.released == Some(TemperatureDiff([store[k][0], m])))
      && (k !in store ==> r.store == store[k := [m]] && r.released == None)
      && (forall k' :: k' != k ==> (k' in r.store <==> k' in store) && (k' in store ==> r.store[k'] == store[k']))
  {
    var k := CorrelationKey(m);
    if k in store {
      assert store[k] + [m] == [store[k][0], m];
    }
  }

  /** The notifications a list of reductions leads to: one filtered, formatted text per passing
      metric, nothing for a failure. */
  function NotesOf(rs: seq<Result<Int32>>): seq<string>
    decreases |rs|
  {
    if |rs| == 0 then []
    else (match rs[0] case Ok(metric) => Notify(metric) case Err(_) => []) + NotesOf(rs[1..])
  }

  lemma NotesOfAppend(a: seq<Result<Int32>>, b: seq<Result<Int32>>)
    ensures NotesOf(a + b) == NotesOf(a) + NotesOf(b)
    decreases |a|
  {
    if |a| == 0 {
      assert a + b == b;
    } else {
      assert (a + b)[0] == a[0];
      assert (a + b)[1..] == a[1..] + b;
      NotesOfAppend(a[1..], b);
    }
  }

  /** The outcome of feeding a list of messages to the aggregator and the stages after it:
      the store afterwards, the reductions of the released groups in order, the notifications
      they produced, and the failure that stopped the feed, if any. */
  datatype Outcome = Outcome(store: Store, released: seq<Result<Int32>>, notes: seq<string>,
                             failure: Option<Failure>)

  /** Feed msgs in order. A failed reduction propagates back to the splitter and stops it, so
      the messages after the failing one are not delivered; the failing group is still removed. */
  function Feed(store: Store, msgs: seq<Message>): Outcome
    decreases |msgs|
  {
    if |msgs| == 0 then Outcome(store, [], [], None)
    else
      var step := AggregateStep(store, msgs[0]);
      match step.released
      case None => Feed(step.store, msgs[1..])
      case Some(Err(f)) => Outcome(step.store, [Err(f)], [], Some(f))
      case Some(Ok(metric)) =>
        var rest := Feed(step.store, msgs[1..]);
        rest.(released := [Ok(metric)] + rest.released, notes := Notify(metric) + rest.notes)
  }

  /** Feeding a non-empty list is aggregating its first message, then feeding the rest unless the
      release failed. */
  lemma FeedStep(store: Store, msgs: seq<Message>)
    requires |msgs| > 0
    ensures var step := AggregateStep(store, msgs[0]); var rest := Feed(step.store, msgs[1..]);
      Feed(store, msgs) == match step.released
        case None => rest
        case Some(Err(f)) => Outcome(step.store, [Err(f)], [], Some(f))
        case Some(Ok(metric)) =>
          Outcome(rest.store, [Ok(metric)] + rest.released, Notify(metric) + rest.notes, rest.failure)
  {
  }

  /** The shape of any outcome of feeding: the notifications are exactly those of the released
      results, only the last released result can be a failure, and the outcome reports a failure
      exactly when it is one. */
  predicate WellFormedOutcome(o: Outcome) {
    o.notes == NotesOf(o.released)
    && (o.failure.Some? <==> |o.released| > 0 && o.released[|o.released| - 1].Err?)
    && (forall i :: 0 <= i < |o.released| - 1 ==> o.released[i].Ok?)
  }

  /** Feeding releases at most one result per message and always yields a well-formed outcome:
      only the last release can be a failure. That nothing after the failure is delivered is
      `FeedFailedStops`. */
  lemma {:induction false} FeedSpec(store: Store, msgs: seq<Message>)
    ensures |Feed(store, msgs).released| <= |msgs|
    ensures WellFormedOutcome(Feed(store, msgs))
    decreases |msgs|
  {
    if |msgs| > 0 {
      var step := AggregateStep(store, msgs[0]);
      FeedSpec(step.store, msgs[1..]);
      var rest := Feed(step.store, msgs[1..]);
      match step.released
      case None =>
      case Some(Err(f)) =>
        assert NotesOf([Err(f)]) == [] + NotesOf([]);
      case Some(Ok(metric)) =>
        OkBeforeWellFormed(metric, rest);
    }
  }

  /** A successful release in front of a well-formed outcome keeps it well-formed. */
  lemma OkBeforeWellFormed(metric: Int32, rest: Outcome)
    requires WellFormedOutcome(rest)
    ensures WellFormedOutcome(Outcome(rest.store, [Ok(metric)] + rest.released, Notify(metric) + rest.notes,
                                      rest.failure))
  {
    var rs := [Ok(metric)] + rest.released;
    assert rs[0] == Ok(metric) && rs[1..] == rest.released;
    assert forall i :: 1 <= i < |rs| ==> rs[i] == rest.released[i - 1];
  }

  /** Once a feed has failed, the messages after it change nothing: they are never delivered,
      so the store, the releases and the notifications are those at the failure. */
  lemma {:induction false} FeedFailedStops(store: Store, a: seq<Message>, b: seq<Message>)
    requires Feed(store, a).failure.Some?
    ensures Feed(store, a + b) == Feed(store, a)
    decreases |a|
  {
    assert |a| > 0;
    var step := AggregateStep(store, a[0]);
    assert (a + b)[0] == a[0] && (a + b)[1..] == a[1..] + b;
    match step.released
    case None =>
      FeedFailedStops(step.store, a[1..], b);
    case Some(Err(f)) =>
    case Some(Ok(metric)) =>
      FeedFailedStops(step.store, a[1..], b);
  }

  /** Feeding keeps every group at one buffered message between messages. */
  lemma {:induction false} FeedBuffered(store: Store, msgs: seq<Message>)
    requires Buffered(store)
    ensures Buffered(Feed(store, msgs).store)
    decreases |msgs|
  {
    if |msgs| > 0 {
      var step := AggregateStep(store, msgs[0]);
      AggregateStepBuffered(store, msgs[0]);
      FeedBuffered(step.store, msgs[1..]);
    }
  }

  // ---------------------------------------------------------------- one tick

  /** The state the flow keeps between polls: the `seq` counter and the aggregator's store. */
  datatype FlowState = FlowState(counter: Int32, store: Store)

  function Initial(): FlowState {
    FlowState(0, map[])
  }

  datatype TickResult = TickResult(state: FlowState, released: seq<Result<Int32>>,
                                   notes: seq<string>, failure: Option<Failure>)

  /** One poll: stamp the reading with the counter, advance the counter, split, and feed the copies. */
  function TickStep(s: FlowState, w: Reading): TickResult {
    var m := Message(w, s.counter);
    var o := Feed(s.store, Split(m));
    TickResult(FlowState(Wrap(s.counter + 1), o.store), o.released, o.notes, o.failure)
  }

  /** One poll: the counter advances by one (wrapping); the first poll (stamp 0) releases at most
      one result and every other poll at most two; the notifications are those of the released
      results, and the poll fails exactly when its last release did. */
  lemma TickStepSpec(s: FlowState, w: Reading)
    ensures var t := TickStep(s, w);
      t.state.counter == Wrap(s.counter + 1)
      && |t.released| <= (if s.counter == 0 then 1 else 2)
      && t.notes == NotesOf(t.released)
      && (t.failure.Some? <==> |t.released| > 0 && t.released[|t.released| - 1].Err?)
      && (forall i :: 0 <= i < |t.released| - 1 ==> t.released[i].Ok?)
  {
    FeedSpec(s.store, Split(Message(w, s.counter)));
  }

  datatype RunResult = RunResult(state: FlowState, notes: seq<string>)

  /** Successive polls returning ws, each handled by step, from state s: the final state and
      the notifications of every poll, in order. */
  function RunWith(step: (FlowState, Reading) -> TickResult, s: FlowState, ws: seq<Reading>): RunResult
    decreases |ws|
  {
    if |ws| == 0 then RunResult(s, [])
    else
      var t := step(s, ws[0]);
      var rest := RunWith(step, t.state, ws[1..]);
      RunResult(rest.state, t.notes + rest.notes)
  }

  /** Successive polls returning ws; a failed tick is logged and the poller carries on. */
  function Run(s: FlowState, ws: seq<Reading>): RunResult {
    RunWith(TickStep, s, ws)
  }
}

=== FILE: weather_checker.dfy ===
/** The running `weatherChecker` flow as an object: the poller's `seq` counter and the
    aggregator's group store are fields that every poll updates in place. */
module WeatherChecker {
  import opened JavaInt
  import opened Stages

  class WeatherFlow {
    /** The `AtomicInteger` the poller stamps messages with. */
    var counter: Int32
    /** The aggregator's message store: the buffered messages of each location. */
    var groups: Store

    ghost function State(): FlowState
      reads this
    {
      FlowState(counter, groups)
    }

    /** Between polls every group holds exactly one message, filed under its own key. */
    ghost predicate Valid()
      reads this
    {
      Buffered(groups)
    }

    /** The flow as built: counter at 0, no group open. */
    constructor ()
      ensures State() == Initial() && Valid()
    {
      counter := 0;
      groups := map[];
    }

    /** The poller: stamp the reading with the current counter and advance it by one
        (`getAndIncrement`, which wraps from MAX to MIN). */
    method Poll(w: Reading) returns (m: Message)
      requires Valid()
      modifies this`counter
      ensures Valid()
      ensures m == Message(w, old(counter))
      ensures counter == Wrap(old(counter) + 1)
    {
      m := Message(w, counter);
      if counter == MAX {
        counter := MIN;
      } else {
        counter := counter + 1;
      }
    }

    /** The aggregator receiving one message: append it to its location's group, and release,
        reduce and remove the group once it holds two messages. */
    method Aggregate(m: Message) returns (released: Option<Result<Int32>>)
      requires Valid()
      modifies this`groups
      ensures Valid()
      ensures Step(groups, released) == AggregateStep(old(groups), m)
    {
      AggregateStepBuffered(groups, m);
      var k := CorrelationKey(m);
      var group := if k in groups then groups[k] + [m] else [m];
      if |group| >= THRESHOLD {
        groups := groups - {k};
        released := Some(TemperatureDiff(group));
      } else {
        groups := groups[k := group];
        released := None;
      }
    }

    /** One poll pushed through the whole chain: stamp, split, aggregate each copy, reduce, filter
        and format. A failed reduction stops the delivery of the remaining copies and is returned
        as the failure the poller logs. */
    method Tick(w: Reading) returns (notes: seq<string>, failure: Option<Failure>)
      requires Valid()
      modifies this
      ensures Valid()
      ensures var t := TickStep(old(State()), w);
        State() == t.state && notes == t.notes && failure == t.failure
    {
      ghost var g0 := groups;
      var m := Poll(w);
      var copies := Split(m);
      ghost var released: seq<Result<Int32>> := [];
      notes, failure := [], None;
      var i := 0;
      while i < |copies| && failure.None?
        invariant 0 <= i <= |copies|
        invariant Valid()
        invariant counter == Wrap(old(counter) + 1)
        invariant failure.None? ==>
          var rest := Feed(groups, copies[i..]);
          Feed(g0, copies) == Outcome(rest.store, released + rest.released, notes + rest.notes, rest.failure)
        invariant failure.Some? ==> Feed(g0, copies) == Outcome(groups, released, notes, failure)
        decreases |copies| - i
      {
        ghost var rest0, released0, notes0 := Feed(groups, copies[i..]), released, notes;
        FeedStep(groups, copies[i..]);
        AggregateStepBuffered(groups, copies[i]);
        assert copies[i..][0] == copies[i] && copies[i..][1..] == copies[i + 1..];
        var r := Aggregate(copies[i]);
        i := i + 1;
        ghost var rest := Feed(groups, copies[i..]);
        if r.Some? {
          var result := r.value;
          released := released + [result];
          if result.Err? {
            failure := Some(result.failure);
            assert rest0 == Outcome(groups, [result], [], failure);
            assert notes + [] == notes;
          } else {
            assert rest0 == Outcome(rest.store, [result] + rest.released, Notify(result.value) + rest.notes, rest.failure);
            if Passes(result.value) {
              notes := notes + [Format(result.value)];
            }
            assert notes == notes0 + Notify(result.value);
            Accumulate(Feed(g0, copies), released0, notes0, result, Notify(result.value), rest0, rest);
          }
        }
      }
      assert failure.None? ==> copies[i..] == [];
    }
  }

  /** Moving one released result and its notifications from the part still to be fed to the
      part already fed leaves the whole outcome unchanged. */
  lemma Accumulate(total: Outcome, rs: seq<Result<Int32>>, ns: seq<string>, r: Result<Int32>,
                   sent: seq<string>, rest0: Outcome, rest: Outcome)
    requires total == Outcome(rest0.store, rs + rest0.released, ns + rest0.notes, rest0.failure)
    requires rest0 == Outcome(rest.store, [r] + rest.released, sent + rest.notes, rest.failure)
    ensures total == Outcome(rest.store, (rs + [r]) + rest.released, (ns + sent) + rest.notes, rest.failure)
  {
    assert rs + ([r] + rest.released) == (rs + [r]) + rest.released;
    assert ns + (sent + rest.notes) == (ns + sent) + rest.notes;
  }
}
